=== FILE: README.md ===
# FinderService, modelled in Dafny

`FinderService` is a small reflective object-relational mapper. `load(con, clazz, criteria)`
builds `select * from <SimpleName>` with one `key=?` term per criterion, binds the
criterion values to the placeholders in list order, executes the statement, and turns
every result row into a fresh instance of `clazz`. A field without the `MappedBy`
annotation is set from the column of the same name. A field with `MappedBy` is filled by a
recursive `load` when its type passes one of the two cardinality checks; otherwise it keeps its value. That sub-load has one criterion: the annotation's `property` equal to the
value of the class's first `Id` field. `findByQuery(con, query, criteria)` runs a
caller-supplied query with the same positional binding and collects column 1 of each row.

The model is functional. Classes, fields, rows, records and criteria are immutable
datatypes. Everything `load` reaches outside itself is a field of `Finder.Env`:
- the JDBC driver and database, as a function from a prepared statement to rows, or to a
  failure;
- the declared fields of each class;
- `Class.isAssignableFrom`;
- `getClass()` of a generic type argument;
- the column-to-field conversion of `ResultSet.getObject(name, type)`.

Every exception the source can throw is a `Result` error in the model, except those listed under "Left out".

Modules:
- `Outcomes`: `Option`, `Result`, and the error taxonomy.
- `Values`: classes, values, records, rows, `KeyValue` and the column lookup.
- `Schema`: `MappedBy`, field declarations, the first Id field, the MappedBy fields.
- `Query`: the text `selectQuery` builds. It comes with a word splitter and a reader that
  recovers the table and keys from that text.
- `Binding`: the prepared statement and positional binding.
- `Finder`: `load` (as `Load`, `LoadRows`, `LoadRow`, `Populate`, `Resolve`, `ResolveOne`)
  and `findByQuery`.
- `FakeDb`: a database held as a map from table name to rows. Its driver reads back the
  statements `Finder` issues.
- `FinderFacts`: the lemmas about `load`.

## How the source behaves, and how the model follows it

- **Cardinality checks.** The source tests `field.getType().isAssignableFrom(Entity.class)`,
  then `...isAssignableFrom(Collection.class)`. These hold only when the field's declared
  type is `Entity` or `Collection`, or a supertype of one of them. A field typed with a
  concrete entity class or `List<...>` matches neither test and is left untouched.
  `Finder.Classify` keeps exactly these two tests in this order, over the given
  `assignableFrom`, and has the third outcome `Neither`.
- **Collection target.** The collection branch loads `genType.getClass()`: the runtime class
  of the `Type` object, not the element type. The model loads
  `env.runtimeClassOf(typeArgument)`, an opaque function of the field. A collection field
  whose generic type is not parameterized fails the cast (`ClassCast`).
- **Field order.** The model takes the fields in the order `getDeclaredFields` returns them. The JDK does not fix that order; HotSpot gives declaration order, and "declaration order" below means the order `getDeclaredFields` returns.
- **Id field.** The Id field is the first `Id`-annotated field in declaration order. It is
  looked up for each MappedBy field before that field is classified, so even a field that
  matches neither test fails (`NoIdField`) when the class has no Id field. The source
  does not reject a class with several Id fields; it uses the first one.
- **Empty single-valued relationship.** `childBeans.get(0)` on an empty list throws; the
  model gives `IndexOutOfBounds`.
- **Recursion.** The source has no depth limit and no cycle guard. A mapping cycle whose
  sub-loads keep returning rows recurses until the stack overflows; a sub-load that
  returns no rows ends the recursion there. `Load` takes `fuel`, the largest
  nesting depth of relationship sub-loads, and reports `StackOverflow` when it runs out.
  `FinderFacts.LoadFuel` shows the bound only cuts the recursion off: more fuel never
  changes an outcome other than `StackOverflow`, whether a result or another error.
- **Failure.** The first failure aborts the whole load, including the remaining rows and
  fields. No partial result is returned.

## Model

| member | source | states |
|---|---|---|
| Query.SelectQuery | src/main/java/com/mgtechno/shared/jdbc/FinderService.java:100-111 | Without criteria the text is exactly "select * from " plus the simple name. With criteria it continues with " where " and the `key=?` terms joined by " and ", in list order. |
| Query.AppendTermsJoin | src/main/java/com/mgtechno/shared/jdbc/FinderService.java:105-108 | The counter-driven append loop (" and " before every term but the first) writes the same text as joining the terms with " and ". |
| Query.SelectQueryTokens | src/main/java/com/mgtechno/shared/jdbc/FinderService.java:100-111 | Split at blanks, the text reads "select", "*", "from", the table. With criteria, "where" follows, then each `key=?` term in list order with "and" between neighbours. |
| Query.NoWhereWithoutCriteria | src/main/java/com/mgtechno/shared/jdbc/FinderService.java:101-103 | With no criteria, " where " occurs nowhere in the text. |
| Query.WhereClauseSeparators | src/main/java/com/mgtechno/shared/jdbc/FinderService.java:105-108 | A where clause of n terms has exactly n - 1 "and" separators. |
| Query.ParseSelectQuery | src/main/java/com/mgtechno/shared/jdbc/FinderService.java:100-111 | Round trip: reading the built text back gives the table name and the criteria's keys, in list order. |
| Binding.BindFrom | src/main/java/com/mgtechno/shared/jdbc/FinderService.java:31-34 | The loop sets each criterion in turn on the next placeholder and leaves earlier bindings alone. |
| Binding.Bind | src/main/java/com/mgtechno/shared/jdbc/FinderService.java:30-35 | Criterion k (0-based) is bound to placeholder k + 1 for every k, and no other placeholder is bound. |
| Binding.BindRoundTrip | src/main/java/com/mgtechno/shared/jdbc/FinderService.java:84-89 | Reading the bound values back in placeholder order, beside the keys, gives back the criteria. |
| Schema.MappedFields | src/main/java/com/mgtechno/shared/jdbc/FinderService.java:49-51 | The relationship pass visits exactly the MappedBy fields. |
| Schema.MappedFieldsInOrder | src/main/java/com/mgtechno/shared/jdbc/FinderService.java:49-51 | The stream filter keeps declaration order: the k-th visited field is the field at the k-th MappedBy position, and the positions are all MappedBy positions in increasing order. |
| Schema.FirstId | src/main/java/com/mgtechno/shared/jdbc/FinderService.java:55-56 | The Id field is the first Id-annotated field in declaration order. There is none exactly when no field is Id-annotated. |
| Finder.Classify | src/main/java/com/mgtechno/shared/jdbc/FinderService.java:60-63 | Single exactly when the field type is assignable from Entity. Multi exactly when it is not, but is assignable from Collection. Otherwise Neither. |
| Finder.Fresh | src/main/java/com/mgtechno/shared/jdbc/FinderService.java:38-39 | A new instance has every declared field and holds null in each. |
| Finder.Populate | src/main/java/com/mgtechno/shared/jdbc/FinderService.java:40-46 | The first pass succeeds exactly when every plain field's column exists and converts. It sets exactly the plain fields. Fields with MappedBy keep their values. |
| Finder.RelationCriteria | src/main/java/com/mgtechno/shared/jdbc/FinderService.java:55-59 | The sub-load criteria are exactly one pair: the MappedBy property and the current value of the first Id field. With no Id field the result is NoIdField. |
| Finder.Load | src/main/java/com/mgtechno/shared/jdbc/FinderService.java:24-76 | Every record returned is an instance of the requested class. |
| Finder.LoadRows | src/main/java/com/mgtechno/shared/jdbc/FinderService.java:37-71 | A successful row loop returns one record per row. |
| Finder.LoadRow | src/main/java/com/mgtechno/shared/jdbc/FinderService.java:38-70 | The record built from a row is an instance of the loaded class. |
| Finder.Resolve | src/main/java/com/mgtechno/shared/jdbc/FinderService.java:52-69 | The relationship pass changes no field other than the MappedBy fields and keeps the record's class. |
| Finder.ResolveOne | src/main/java/com/mgtechno/shared/jdbc/FinderService.java:53-67 | Resolving one MappedBy field changes no other field. |
| Finder.ChildClass | src/main/java/com/mgtechno/shared/jdbc/FinderService.java:60-65 | A single-valued field loads its own declared type. A collection field loads the runtime class of its type argument, and fails the cast when its type has no argument. The only error is ClassCast. |
| Finder.Attach | src/main/java/com/mgtechno/shared/jdbc/FinderService.java:60-67 | A single-valued field receives the first child and fails with IndexOutOfBounds on an empty list. A collection field receives the whole list. A failing sub-load's error passes through unchanged. No other field changes. |
| Finder.FirstColumns | src/main/java/com/mgtechno/shared/jdbc/FinderService.java:91-93 | Column 1 of every row, one entry per row in row order. The loop fails exactly when some row has no column. |
| Finder.FindByQuery | src/main/java/com/mgtechno/shared/jdbc/FinderService.java:78-98 | A failing statement fails the call with SqlFailure. An executed statement succeeds exactly when every returned row has a column, and then gives column 1 of each row in row order. The only errors are SqlFailure and NoColumn. |
| FinderFacts.LoadRowsInOrder | src/main/java/com/mgtechno/shared/jdbc/FinderService.java:37-71 | Record i is the one built from row i. The loop succeeds exactly when every row does. |
| FinderFacts.LoadRowsFirstError | src/main/java/com/mgtechno/shared/jdbc/FinderService.java:37-71 | A failing loop fails with the error of the first failing row. Every row before it loads. |
| FinderFacts.LoadExecuted | src/main/java/com/mgtechno/shared/jdbc/FinderService.java:29-37 | A statement that executes makes load the row loop over exactly the rows it returns. |
| FinderFacts.LoadSucceeds | src/main/java/com/mgtechno/shared/jdbc/FinderService.java:29-76 | load succeeds exactly when its statement executes and every returned row loads. |
| FinderFacts.LoadOneRecordPerRow | src/main/java/com/mgtechno/shared/jdbc/FinderService.java:29-75 | load returns one record per row its statement returns, in row order. A statement that fails to execute fails the load. |
| FinderFacts.PopulateFromRow | src/main/java/com/mgtechno/shared/jdbc/FinderService.java:40-46 | Every field without MappedBy holds its same-named column, converted to the field's type. |
| FinderFacts.PopulateStopsAtFirstBadColumn | src/main/java/com/mgtechno/shared/jdbc/FinderService.java:40-46 | A failing first pass fails with the error of the first plain field, in declaration order, whose column is missing or does not convert. |
| FinderFacts.ResolveOneSucceeds | src/main/java/com/mgtechno/shared/jdbc/FinderService.java:53-67 | One MappedBy field succeeds exactly when there is an Id field and the field can be filled: always for a field of neither kind; for a single-valued field, a non-empty sub-load of its type; for a collection field, a type argument and a successful sub-load. Each sub-load needs fuel. |
| FinderFacts.ResolveOneKeepsNeither | src/main/java/com/mgtechno/shared/jdbc/FinderService.java:55-67 | With an Id field present, a MappedBy field assignable from neither Entity nor Collection leaves the record unchanged. |
| FinderFacts.ResolveOneFills | src/main/java/com/mgtechno/shared/jdbc/FinderService.java:53-67 | With no Id field a MappedBy field fails. Otherwise it is filled by its cardinality from a sub-load keyed by the Id field's value. |
| FinderFacts.ResolveNeedsId | src/main/java/com/mgtechno/shared/jdbc/FinderService.java:52-56 | With a MappedBy field and no Id field, the relationship pass fails with NoIdField. |
| FinderFacts.ResolveFields | src/main/java/com/mgtechno/shared/jdbc/FinderService.java:52-69 | When the pass succeeds, each MappedBy field gets the first child, the whole child list, or keeps its value, by its cardinality. Each sub-load has the one criterion (property, Id value). |
| FinderFacts.ResolveFirstError | src/main/java/com/mgtechno/shared/jdbc/FinderService.java:53-68 | A failing relationship pass fails with the error of the first MappedBy field, in declaration order, that fails on the populated record. Every earlier field succeeds. |
| FinderFacts.ResolveSucceeds | src/main/java/com/mgtechno/shared/jdbc/FinderService.java:49-69 | The relationship pass succeeds exactly when there is no MappedBy field, or there is an Id field and every MappedBy field can be filled from the sub-load keyed by the Id field's value. |
| FinderFacts.LoadRowSucceeds | src/main/java/com/mgtechno/shared/jdbc/FinderService.java:38-70 | A row loads exactly when its class can be instantiated, its plain fields populate, and its relationship pass succeeds on the populated record. |
| FinderFacts.LoadRowWithoutRelations | src/main/java/com/mgtechno/shared/jdbc/FinderService.java:38-52 | A class without MappedBy fields yields exactly the record its first pass builds. |
| FinderFacts.LoadRowPlainFields | src/main/java/com/mgtechno/shared/jdbc/FinderService.java:38-46 | In every record a row yields, each field without MappedBy holds that row's same-named column, converted to the field's type. The relationship pass does not overwrite it. |
| FinderFacts.LoadRowNeedsId | src/main/java/com/mgtechno/shared/jdbc/FinderService.java:49-56 | A row of a class with a MappedBy field but no Id field fails with NoIdField once its plain fields are populated. |
| FinderFacts.LoadRowRelations | src/main/java/com/mgtechno/shared/jdbc/FinderService.java:49-69 | In every record a row yields, each MappedBy field is filled by its cardinality from a sub-load keyed by the Id value populated from this row. A Single field needs a non-empty child list. |
| FinderFacts.LoadFuel | src/main/java/com/mgtechno/shared/jdbc/FinderService.java:60-66 | The depth bound only cuts the recursion off. A load that ends at some depth with records or with any error other than running out of depth ends the same way at every larger depth. |
| FinderFacts.LoadFromTable | src/main/java/com/mgtechno/shared/jdbc/FinderService.java:29-36 | Over a database of named tables, load builds one record per table row that satisfies every criterion, in table order. A missing table fails the load. |
| FakeDb.ExecuteSelect | src/main/java/com/mgtechno/shared/jdbc/FinderService.java:29-36 | The statement built and bound for a class selects exactly the rows of its table that satisfy the criteria, in table order. |

## Left out

- JDBC I/O (connection, `prepareStatement`, `executeQuery`, `ResultSet` iteration) is the opaque `Env.execute`. The query text is only interpreted by the `FakeDb` driver.
- `close` (FinderService.java:113-124) is resource release and is not modelled. It closes the statement before the result set. An exception from the statement's `close` skips the result set's `close`. It is logged and never propagated.
- Java reflection (`getDeclaredFields`, `setAccessible`, constructors) is left out. The declared fields are a given sequence, in the order `getDeclaredFields` returns them. Static and synthetic fields are not modelled.
- The conversion inside `rs.getObject(name, type)` is the opaque `Env.coerce`, which may fail. Column lookup takes the first column with the exact name; the case-insensitive column-label matching that the `ResultSet` API documents for its getter methods is not reproduced.
- A fresh instance holds null in every field. Field initialisers in the no-argument constructor and primitive defaults (0, false) are not modelled.
- `Field.set` type checks are not modelled, such as assigning a child record the field's type cannot hold.
- The unchecked cast `(B)` in `findByQuery` has no effect on values and is not modelled.
- `MappedBy.reference` and `MappedBy.lazy` are carried but inert, because nothing reads them.
- `Entity`, `KeyValue`, `CollectionUtil` and `Id` are not part of this model. `KeyValue` is a pair. `isNotEmpty` is `|s| > 0`. A null criteria list is not modelled.
- The unbounded recursion is bounded by `fuel`. Running out is reported as `StackOverflow`, which is what a mapping cycle whose sub-loads keep returning rows does in Java. Depth beyond the fuel is not modelled.
- Query.SelectQueryTokens: stated only for class names and criterion keys without blanks, which Java identifiers and column names satisfy.
- Query.ParseSelectQuery: stated only for class names and criterion keys without blanks.
- Query.NoWhereWithoutCriteria: stated only for class names without blanks.
- FakeDb.ExecuteSelect: stated only for class names and keys without blanks, which Java identifiers and column names satisfy; a blank would make the words of the built text ambiguous.
- FinderFacts.LoadFromTable: stated only for class names and keys without blanks. The `FakeDb` driver treats a bound null as equal to nothing, as SQL does.
- FinderFacts.LoadRowRelations: stated only for classes with distinct field names and whose first Id field has no MappedBy. The functions also model the other case, where a relationship field serves as the Id and its value changes during the pass.
- FinderFacts.ResolveFields: requires distinct MappedBy field names and an Id field that is not one of them, for the same reason.
- FinderFacts.ResolveSucceeds: stated only for classes whose first Id field has no MappedBy, for the same reason as LoadRowRelations.
- FinderFacts.ResolveFirstError: stated only for classes whose first Id field has no MappedBy, for the same reason as LoadRowRelations.

=== FILE: binding.dfy ===
/** Positional binding of criteria values to the placeholders of a prepared statement. */
module Binding {
  import opened Values
  import Query

  /** A prepared statement: its text and the values set on its placeholders (1-based). */
  datatype Statement = Statement(sql: string, params: map<nat, Value>)

  /** The placeholder positions 1..n. */
  function Placeholders(n: nat): (ks: set<nat>)
    ensures forall k :: k in ks <==> 1 <= k <= n
  {
    if n == 0 then {} else Placeholders(n - 1) + {n}
  }

  /** The binding loop: each criterion in turn is set on placeholder `i`, then `i` grows by one. */
  function BindFrom(params: map<nat, Value>, crit: seq<KeyValue>, i: nat): (r: map<nat, Value>)
    ensures forall k :: k in r <==> k in params || i <= k < i + |crit|
    ensures forall k :: i <= k < i + |crit| ==> r[k] == crit[k - i].value
    ensures forall k :: k in params && !(i <= k < i + |crit|) ==> r[k] == params[k]
    decreases |crit|
  {
    if |crit| == 0 then params
    else BindFrom(params[i := crit[0].value], crit[1..], i + 1)
  }

  /** The parameters `load` and `findByQuery` set: criterion k (0-based) on placeholder
      k + 1, and no other placeholder. */
  function Bind(crit: seq<KeyValue>): (params: map<nat, Value>)
    ensures params.Keys == Placeholders(|crit|)
    ensures forall k :: 0 <= k < |crit| ==> params[k + 1] == crit[k].value
  {
    BindFrom(map[], crit, 1)
  }

  /** The criteria a statement stands for, given the columns its where terms name. */
  function Criteria(keys: seq<string>, params: map<nat, Value>): (crit: seq<KeyValue>)
    requires forall k :: 1 <= k <= |keys| ==> k in params
    ensures |crit| == |keys|
    ensures forall i :: 0 <= i < |keys| ==> crit[i] == KeyValue(keys[i], params[i + 1])
  {
    seq(|keys|, i requires 0 <= i < |keys| => KeyValue(keys[i], params[i + 1]))
  }

  /** Binding loses nothing: the bound values, read back in placeholder order beside the
      criteria's keys, are the criteria themselves. */
  lemma BindRoundTrip(crit: seq<KeyValue>)
    ensures Criteria(Query.Keys(crit), Bind(crit)) == crit
  {
  }
}

=== FILE: fake_db.dfy ===
/** A database held as a map from table name to rows, and a driver over it that reads
    the statements SelectQuery and Bind produce. */
module FakeDb {
  import opened Outcomes
  import opened Values
  import opened Binding
  import opened Query

  type Database = map<string, seq<Row>>

  /** A row satisfies the where clause when every named column holds the bound value;
      as in SQL, a bound null equals nothing. */
  predicate Matches(row: Row, crit: seq<KeyValue>) {
    forall i :: 0 <= i < |crit| ==> crit[i].value != Null && Lookup(row, crit[i].key) == Some(crit[i].value)
  }

  /** The rows of a table that satisfy the criteria, in table order. */
  function Select(rows: seq<Row>, crit: seq<KeyValue>): (r: seq<Row>)
    ensures forall row :: row in r <==> row in rows && Matches(row, crit)
    ensures |r| <= |rows|
    decreases |rows|
  {
    if |rows| == 0 then []
    else
      assert forall row :: row in rows <==> row == rows[0] || row in rows[1..];
      (if Matches(rows[0], crit) then [rows[0]] else []) + Select(rows[1..], crit)
  }

  /** Executing a statement: its text must read as a select, the table must exist, and
      exactly the placeholders of its where terms must be bound. */
  function Execute(db: Database, stmt: Statement): Option<seq<Row>> {
    match ParseSelect(stmt.sql)
    case None => None
    case Some(text) =>
      if text.table !in db || stmt.params.Keys != Placeholders(|text.keys|) then None
      else Some(Select(db[text.table], Criteria(text.keys, stmt.params)))
  }

  /** The driver as the finder sees it. */
  function Driver(db: Database): Statement -> Option<seq<Row>> {
    (stmt: Statement) => Execute(db, stmt)
  }

  /** The statement built for a class and criteria selects exactly the rows of the table
      named after the class that satisfy every criterion, in table order; an unknown
      table makes execution fail. */
  lemma ExecuteSelect(db: Database, simpleName: string, crit: seq<KeyValue>)
    requires SpaceFree(simpleName) && KeysSpaceFree(crit)
    ensures Execute(db, Statement(SelectQuery(simpleName, crit), Bind(crit)))
            == if simpleName in db then Some(Select(db[simpleName], crit)) else None
  {
    ParseSelectQuery(simpleName, crit);
    BindRoundTrip(crit);
  }
}

=== FILE: finder.dfy ===
/** FinderService: loading records by equality criteria, following MappedBy relationships,
    and collecting the first column of an arbitrary query. */
module Finder {
  import opened Outcomes
  import opened Values
  import opened Schema
  import opened Binding
  import Query

  const EntityClass: ClassRef := ClassRef("com.mgtechno.shared", "Entity")
  const CollectionClass: ClassRef := ClassRef("java.util", "Collection")

  /** Everything the finder reaches outside itself, as given functions:
      - execute: the connection's driver and database; None when preparing or executing throws;
      - classes: the declared fields of each class that has a no-argument constructor;
      - assignableFrom(a, b): Class.isAssignableFrom, "a is b or a supertype of b";
      - runtimeClassOf: getClass() of the object describing a generic type argument;
      - coerce: ResultSet.getObject(column, type); None when the conversion throws. */
  datatype Env = Env(
    execute: Statement -> Option<seq<Row>>,
    classes: map<ClassRef, seq<FieldDecl>>,
    assignableFrom: (ClassRef, ClassRef) -> bool,
    runtimeClassOf: string -> ClassRef,
    coerce: (Value, ClassRef) -> Option<Value>)

  /** How a relationship field is filled: one record, the whole list, or not at all. */
  datatype Cardinality = Single | Multi | Neither

  /** The two checks in their order: the field's type assignable from Entity, else from Collection. */
  function Classify(env: Env, f: FieldDecl): (k: Cardinality)
    ensures k == Single <==> env.assignableFrom(f.ty, EntityClass)
    ensures k == Multi <==> !env.assignableFrom(f.ty, EntityClass) && env.assignableFrom(f.ty, CollectionClass)
  {
    if env.assignableFrom(f.ty, EntityClass) then Single
    else if env.assignableFrom(f.ty, CollectionClass) then Multi
    else Neither
  }

  /** The statement `load` prepares for class `c`. */
  function SelectStatement(c: ClassRef, crit: seq<KeyValue>): Statement {
    Statement(Query.SelectQuery(c.simpleName, crit), Bind(crit))
  }

  /** A freshly constructed instance: every declared field null. */
  function Fresh(c: ClassRef, fs: seq<FieldDecl>): (rec: Record)
    ensures rec.cls == c && rec.fields.Keys == Names(fs)
    ensures forall n :: n in rec.fields ==> rec.fields[n] == Null
  {
    Record(c, map n | n in Names(fs) :: Null)
  }

  /** rs.getObject(f.name, f.ty): the named column converted to the field's type. */
  function ReadColumn(env: Env, row: Row, f: FieldDecl): Result<Value> {
    match Lookup(row, f.name)
    case None => Err(ColumnMissing(f.name))
    case Some(v) =>
      match env.coerce(v, f.ty)
      case None => Err(CoercionFailed(f.name))
      case Some(w) => Ok(w)
  }

  /** The first pass over the declared fields: every field without MappedBy is set from
      its column; fields with MappedBy are skipped. */
  function Populate(env: Env, fs: seq<FieldDecl>, row: Row, rec: Record): (r: Result<Record>)
    ensures r.Ok? <==> forall f :: f in fs && !f.IsMapped() ==> ReadColumn(env, row, f).Ok?
    ensures r.Ok? ==> r.value.cls == rec.cls
    ensures r.Ok? ==> r.value.fields.Keys == rec.fields.Keys + PlainNames(fs)
    ensures r.Ok? ==> forall n :: n in rec.fields && n !in PlainNames(fs) ==> r.value.fields[n] == rec.fields[n]
    decreases |fs|
  {
    if |fs| == 0 then Ok(rec)
    else
      assert forall f :: f in fs <==> f == fs[0] || f in fs[1..];
      assert PlainNames(fs) == (if fs[0].IsMapped() then {} else {fs[0].name}) + PlainNames(fs[1..]);
      if fs[0].IsMapped() then Populate(env, fs[1..], row, rec)
      else match ReadColumn(env, row, fs[0])
        case Err(e) => Err(e)
        case Ok(v) => Populate(env, fs[1..], row, Set(rec, fs[0].name, v))
  }

  /** The single criterion of a relationship sub-load: the MappedBy property equal to the
      current value of the first Id field; no Id field makes `.get()` throw. */
  function RelationCriteria(fs: seq<FieldDecl>, m: FieldDecl, rec: Record): (r: Result<seq<KeyValue>>)
    requires m.IsMapped()
    ensures r.Err? <==> forall i :: 0 <= i < |fs| ==> !fs[i].isId
    ensures r.Err? ==> r.error == NoIdField
    ensures r.Ok? ==> |r.value| == 1 && r.value[0].key == m.mappedBy.value.property
    ensures r.Ok? ==> exists i :: 0 <= i < |fs| && fs[i].isId && r.value[0].value == Get(rec, fs[i].name)
                                  && forall j :: 0 <= j < i ==> !fs[j].isId
  {
    match FirstId(fs)
    case None => Err(NoIdField)
    case Some(idField) => Ok([KeyValue(m.mappedBy.value.property, Get(rec, idField.name))])
  }

  /** load(con, c, crit): prepare the select for `c`, bind the criteria, execute, and turn
      each result row into one record. `fuel` bounds the nesting depth of relationship
      sub-loads; the source has no such bound. */
  function Load(env: Env, c: ClassRef, crit: seq<KeyValue>, fuel: nat): (r: Result<seq<Record>>)
    ensures r.Ok? ==> forall i :: 0 <= i < |r.value| ==> r.value[i].cls == c
    decreases fuel, 3, 0
  {
    match env.execute(SelectStatement(c, crit))
    case None => Err(SqlFailure)
    case Some(rows) => LoadRows(env, c, rows, fuel)
  }

  /** The row loop: records in row order; the first failing row aborts the load. */
  function LoadRows(env: Env, c: ClassRef, rows: seq<Row>, fuel: nat): (r: Result<seq<Record>>)
    ensures r.Ok? ==> |r.value| == |rows|
    ensures r.Ok? ==> forall i :: 0 <= i < |r.value| ==> r.value[i].cls == c
    decreases fuel, 2, |rows|
  {
    if |rows| == 0 then Ok([])
    else match LoadRow(env, c, rows[0], fuel)
      case Err(e) => Err(e)
      case Ok(rec) =>
        match LoadRows(env, c, rows[1..], fuel)
        case Err(e) => Err(e)
        case Ok(recs) => Ok([rec] + recs)
  }

  /** One row: instantiate `c`, populate its plain fields, then resolve its relationships. */
  function LoadRow(env: Env, c: ClassRef, row: Row, fuel: nat): (r: Result<Record>)
    ensures r.Ok? ==> r.value.cls == c
    decreases fuel, 1, 0
  {
    if c !in env.classes then Err(NoConstructor(c.simpleName))
    else
      var fs := env.classes[c];
      match Populate(env, fs, row, Fresh(c, fs))
      case Err(e) => Err(e)
      case Ok(rec) => Resolve(env, fs, MappedFields(fs), rec, fuel)
  }

  /** The second pass over the MappedBy fields, in declaration order; the first field
      that fails aborts the pass. */
  function Resolve(env: Env, fs: seq<FieldDecl>, mapped: seq<FieldDecl>, rec: Record, fuel: nat)
    : (r: Result<Record>)
    requires forall f :: f in mapped ==> f.IsMapped()
    ensures r.Ok? ==> r.value.cls == rec.cls
    ensures r.Ok? ==> rec.fields.Keys <= r.value.fields.Keys
    ensures r.Ok? ==> forall n :: n !in Names(mapped) ==> Get(r.value, n) == Get(rec, n)
    decreases fuel, 0, |mapped|
  {
    if |mapped| == 0 then Ok(rec)
    else
      assert mapped[0] in mapped;
      assert forall i :: 1 <= i < |mapped| ==> mapped[i] == mapped[1..][i - 1];
      match ResolveOne(env, fs, mapped[0], rec, fuel)
      case Err(e) => Err(e)
      case Ok(rec') => Resolve(env, fs, mapped[1..], rec', fuel)
  }

  /** One MappedBy field `m`: look up the Id field, classify the field, find the class
      to load, load the related records with the one criterion, and assign them. */
  function ResolveOne(env: Env, fs: seq<FieldDecl>, m: FieldDecl, rec: Record, fuel: nat): (r: Result<Record>)
    requires m.IsMapped()
    ensures r.Ok? ==> r.value.cls == rec.cls
    ensures r.Ok? ==> rec.fields.Keys <= r.value.fields.Keys
    ensures r.Ok? ==> forall n :: n != m.name ==> Get(r.value, n) == Get(rec, n)
    decreases fuel, 0, 0
  {
    match RelationCriteria(fs, m, rec)
    case Err(e) => Err(e)
    case Ok(crit) =>
      var kind := Classify(env, m);
      if kind == Neither then Ok(rec)
      else match ChildClass(env, m, kind)
        case Err(e) => Err(e)
        case Ok(target) =>
          if fuel == 0 then Err(StackOverflow)
          else Attach(rec, m, kind, Load(env, target, crit, fuel - 1))
  }

  /** The class a relationship field loads: the field's own type for a single record;
      for a collection, the runtime class of the object describing its type argument,
      after the cast to ParameterizedType, which fails on a raw type. */
  function ChildClass(env: Env, m: FieldDecl, kind: Cardinality): (r: Result<ClassRef>)
    requires kind != Neither
    ensures kind == Single ==> r == Ok(m.ty)
    ensures kind == Multi ==> (r.Err? <==> m.typeArgument.None?)
    ensures kind == Multi && r.Ok? ==> r.value == env.runtimeClassOf(m.typeArgument.value)
    ensures r.Err? ==> r.error == ClassCast
  {
    if kind == Single then Ok(m.ty)
    else match m.typeArgument
      case None => Err(ClassCast)
      case Some(arg) => Ok(env.runtimeClassOf(arg))
  }

  /** Assigning the loaded related records: the first one to a single-valued field (an
      empty list throws), the whole list to a collection field. */
  function Attach(rec: Record, m: FieldDecl, kind: Cardinality, children: Result<seq<Record>>): (r: Result<Record>)
    requires kind != Neither
    ensures r.Ok? <==> children.Ok? && (kind.Single? ==> |children.value| > 0)
    ensures children.Err? ==> r == Err(children.error)
    ensures children.Ok? && kind.Single? && |children.value| == 0 ==> r == Err(IndexOutOfBounds)
    ensures r.Ok? ==> r.value.cls == rec.cls && rec.fields.Keys <= r.value.fields.Keys
    ensures r.Ok? ==> forall n :: n != m.name ==> Get(r.value, n) == Get(rec, n)
    ensures r.Ok? && kind.Single? ==> Get(r.value, m.name) == Ref(children.value[0])
    ensures r.Ok? && kind.Multi? ==> Get(r.value, m.name) == Refs(children.value)
  {
    match children
    case Err(e) => Err(e)
    case Ok(cs) =>
      if kind.Multi? then Ok(Set(rec, m.name, Refs(cs)))
      else if |cs| == 0 then Err(IndexOutOfBounds)
      else Ok(Set(rec, m.name, Ref(cs[0])))
  }

  /** The row loop of findByQuery: column 1 of each row; a row without columns throws. */
  function FirstColumns(rows: seq<Row>): (r: Result<seq<Value>>)
    ensures r.Ok? <==> forall i :: 0 <= i < |rows| ==> |rows[i]| > 0
    ensures r.Err? ==> r.error == NoColumn
    ensures r.Ok? ==> |r.value| == |rows| && forall i :: 0 <= i < |rows| ==> r.value[i] == rows[i][0].value
    decreases |rows|
  {
    if |rows| == 0 then Ok([])
    else if |rows[0]| == 0 then Err(NoColumn)
    else
      assert forall i :: 1 <= i < |rows| ==> rows[i] == rows[1..][i - 1];
      match FirstColumns(rows[1..])
      case Err(e) => Err(e)
      case Ok(vs) => Ok([rows[0][0].value] + vs)
  }

  /** findByQuery(con, query, crit): run the caller's text with the criteria bound
      positionally, and return the first column of every row, in row order. */
  function FindByQuery(env: Env, query: string, crit: seq<KeyValue>): (r: Result<seq<Value>>)
    ensures env.execute(Statement(query, Bind(crit))).None? ==> r == Err(SqlFailure)
    ensures r.Ok? ==> env.execute(Statement(query, Bind(crit))).Some?
    ensures r.Ok? ==> var rows := env.execute(Statement(query, Bind(crit))).value;
                      |r.value| == |rows| && forall i :: 0 <= i < |rows| ==> |rows[i]| > 0 && r.value[i] == rows[i][0].value
    ensures env.execute(Statement(query, Bind(crit))).Some? ==>
              var rows := env.execute(Statement(query, Bind(crit))).value;
              (r.Ok? <==> forall i :: 0 <= i < |rows| ==> |rows[i]| > 0)
    ensures r.Err? ==> r.error == SqlFailure || r.error == NoColumn
  {
    match env.execute(Statement(query, Bind(crit)))
    case None => Err(SqlFailure)
    case Some(rows) => FirstColumns(rows)
  }
}

=== FILE: finder_facts.dfy ===
/** What `load` promises: one record per row in row order, plain fields from their
    columns, relationship fields from one-criterion sub-loads, and a depth bound that
    only ever cuts the recursion off. */
module FinderFacts {
  import opened Outcomes
  import opened Values
  import opened Schema
  import opened Binding
  import opened Finder
  import Query
  import FakeDb

  /** One row's load as a step of the row loop. */
  function RowLoader(env: Env, c: ClassRef, fuel: nat): Row -> Result<Record> {
    row => LoadRow(env, c, row, fuel)
  }

  /** The row loop is a traversal of the rows with the row load as its step. */
  lemma {:induction false} LoadRowsTraverse(env: Env, c: ClassRef, rows: seq<Row>, fuel: nat)
    ensures LoadRows(env, c, rows, fuel) == Traverse(RowLoader(env, c, fuel), rows)
    decreases |rows|
  {
    if |rows| > 0 {
      LoadRowsTraverse(env, c, rows[1..], fuel);
      assert RowLoader(env, c, fuel)(rows[0]) == LoadRow(env, c, rows[0], fuel);
    }
  }

  /** The rows are loaded in order, one record each; the load succeeds exactly when
      every row does. */
  lemma LoadRowsInOrder(env: Env, c: ClassRef, rows: seq<Row>, fuel: nat)
    ensures LoadRows(env, c, rows, fuel).Ok? <==> forall i :: 0 <= i < |rows| ==> LoadRow(env, c, rows[i], fuel).Ok?
    ensures LoadRows(env, c, rows, fuel).Ok? ==>
              forall i :: 0 <= i < |rows| ==> LoadRow(env, c, rows[i], fuel) == Ok(LoadRows(env, c, rows, fuel).value[i])
  {
    var step := RowLoader(env, c, fuel);
    LoadRowsTraverse(env, c, rows, fuel);
    TraverseInOrder(step, rows);
    assert forall i :: 0 <= i < |rows| ==> step(rows[i]) == LoadRow(env, c, rows[i], fuel);
  }

  /** A failing row loop fails with the error of the first failing row; the rows after
      it are never loaded. */
  lemma LoadRowsFirstError(env: Env, c: ClassRef, rows: seq<Row>, fuel: nat)
    ensures LoadRows(env, c, rows, fuel).Err? ==>
              exists i :: 0 <= i < |rows| && LoadRow(env, c, rows[i], fuel) == Err(LoadRows(env, c, rows, fuel).error)
                          && forall j :: 0 <= j < i ==> LoadRow(env, c, rows[j], fuel).Ok?
  {
    var step := RowLoader(env, c, fuel);
    LoadRowsTraverse(env, c, rows, fuel);
    TraverseFirstError(step, rows);
    assert forall i :: 0 <= i < |rows| ==> step(rows[i]) == LoadRow(env, c, rows[i], fuel);
  }

  /** load returns one record per result row of its statement, the i-th built from the
      i-th row; a statement that fails to execute fails the load. */
  lemma LoadOneRecordPerRow(env: Env, c: ClassRef, crit: seq<KeyValue>, fuel: nat)
    ensures env.execute(SelectStatement(c, crit)).None? ==> Load(env, c, crit, fuel) == Err(SqlFailure)
    ensures Load(env, c, crit, fuel).Ok? ==>
              && env.execute(SelectStatement(c, crit)).Some?
              && var rows := env.execute(SelectStatement(c, crit)).value;
                 && |Load(env, c, crit, fuel).value| == |rows|
                 && forall i :: 0 <= i < |rows| ==> LoadRow(env, c, rows[i], fuel) == Ok(Load(env, c, crit, fuel).value[i])
  {
    match env.execute(SelectStatement(c, crit))
    case None =>
    case Some(rows) => LoadRowsInOrder(env, c, rows, fuel);
  }

  /** load succeeds exactly when its statement executes and every returned row loads. */
  lemma LoadSucceeds(env: Env, c: ClassRef, crit: seq<KeyValue>, fuel: nat)
    ensures Load(env, c, crit, fuel).Ok? <==>
              && env.execute(SelectStatement(c, crit)).Some?
              && var rows := env.execute(SelectStatement(c, crit)).value;
                 forall i :: 0 <= i < |rows| ==> LoadRow(env, c, rows[i], fuel).Ok?
  {
    match env.execute(SelectStatement(c, crit))
    case None =>
    case Some(rows) =>
      LoadExecuted(env, c, crit, rows, fuel);
      LoadRowsInOrder(env, c, rows, fuel);
  }

  /** Every field without MappedBy holds its own column, converted to its type. */
  lemma {:induction false} PopulateFromRow(env: Env, fs: seq<FieldDecl>, row: Row, rec: Record)
    requires DistinctNames(fs)
    ensures Populate(env, fs, row, rec).Ok? ==>
              forall f :: f in fs && !f.IsMapped() ==>
                ReadColumn(env, row, f) == Ok(Get(Populate(env, fs, row, rec).value, f.name))
    decreases |fs|
  {
    if |fs| > 0 {
      var f := fs[0];
      var tail := fs[1..];
      var start := rec;
      if !f.IsMapped() {
        match ReadColumn(env, row, f)
        case Err(_) => return;
        case Ok(v) => start := Set(rec, f.name, v);
      }
      assert Populate(env, fs, row, rec) == Populate(env, tail, row, start);
      PopulateFromRow(env, tail, row, start);
      match Populate(env, tail, row, start)
      case Err(_) =>
      case Ok(done) =>
        HeadNameUnique(fs);
        assert forall g :: g in fs ==> g == f || g in tail;
    }
  }

  /** The first of distinctly named fields shares its name with none of the rest. */
  lemma HeadNameUnique(fs: seq<FieldDecl>)
    requires DistinctNames(fs) && |fs| > 0
    ensures fs[0].name !in Names(fs[1..])
  {
    forall g | g in fs[1..] ensures g.name != fs[0].name {
      var i :| 0 <= i < |fs[1..]| && fs[1..][i] == g;
      assert fs[i + 1] == g;
    }
  }

  /** The first column, in declaration order, that is missing or does not convert fails
      the pass with its error; later fields are not read. */
  lemma {:induction false} PopulateStopsAtFirstBadColumn(env: Env, fs: seq<FieldDecl>, row: Row, rec: Record)
    ensures Populate(env, fs, row, rec).Err? ==>
              exists i :: 0 <= i < |fs| && !fs[i].IsMapped()
                          && ReadColumn(env, row, fs[i]) == Err(Populate(env, fs, row, rec).error)
                          && forall j :: 0 <= j < i && !fs[j].IsMapped() ==> ReadColumn(env, row, fs[j]).Ok?
    decreases |fs|
  {
    var r := Populate(env, fs, row, rec);
    if |fs| > 0 && r.Err? {
      var f := fs[0];
      var tail := fs[1..];
      assert forall i :: 1 <= i < |fs| ==> fs[i] == tail[i - 1];
      if f.IsMapped() || ReadColumn(env, row, f).Ok? {
        var rec' := if f.IsMapped() then rec else Set(rec, f.name, ReadColumn(env, row, f).value);
        assert r == Populate(env, tail, row, rec');
        PopulateStopsAtFirstBadColumn(env, tail, row, rec');
        var k :| 0 <= k < |tail| && !tail[k].IsMapped() && ReadColumn(env, row, tail[k]) == Err(r.error)
                 && forall j :: 0 <= j < k && !tail[j].IsMapped() ==> ReadColumn(env, row, tail[j]).Ok?;
        assert ReadColumn(env, row, fs[k + 1]) == Err(r.error);
      } else {
        assert ReadColumn(env, row, fs[0]) == Err(r.error);
      }
    }
  }

  /** The outcome the source gives a relationship field `m` whose sub-load criterion is
      `m`'s property equal to `id`: a field typed Entity or a supertype of it receives the
      first related record, and there must be one; a field typed Collection or a supertype
      receives the whole related list, loaded for the runtime class of its type argument;
      any other field keeps the value `before` it had. */
  predicate Filled(env: Env, m: FieldDecl, id: Value, before: Value, after: Value, fuel: nat)
    requires m.IsMapped()
  {
    var crit := [KeyValue(m.mappedBy.value.property, id)];
    match Classify(env, m)
    case Neither => after == before
    case Single =>
      && fuel > 0
      && Load(env, m.ty, crit, fuel - 1).Ok?
      && |Load(env, m.ty, crit, fuel - 1).value| > 0
      && after == Ref(Load(env, m.ty, crit, fuel - 1).value[0])
    case Multi =>
      && fuel > 0
      && m.typeArgument.Some?
      && Load(env, env.runtimeClassOf(m.typeArgument.value), crit, fuel - 1).Ok?
      && after == Refs(Load(env, env.runtimeClassOf(m.typeArgument.value), crit, fuel - 1).value)
  }

  /** One relationship field: with no Id field it fails; when it succeeds, the field is
      filled from a sub-load whose one criterion is its property equal to the current
      value of the first Id field. */
  lemma ResolveOneFills(env: Env, fs: seq<FieldDecl>, m: FieldDecl, rec: Record, fuel: nat)
    requires m.IsMapped()
    ensures FirstId(fs).None? ==> ResolveOne(env, fs, m, rec, fuel) == Err(NoIdField)
    ensures ResolveOne(env, fs, m, rec, fuel).Ok? ==>
              && FirstId(fs).Some?
              && Filled(env, m, Get(rec, FirstId(fs).value.name), Get(rec, m.name),
                        Get(ResolveOne(env, fs, m, rec, fuel).value, m.name), fuel)
  {
  }

  /** When one relationship field can be filled: a field of neither kind always can (it is
      left alone); a single-valued field needs a non-empty sub-load of its declared type; a
      collection field needs a type argument and a successful sub-load of its runtime class.
      Every sub-load needs one more level of nesting. */
  predicate Fillable(env: Env, m: FieldDecl, id: Value, fuel: nat)
    requires m.IsMapped()
  {
    var crit := [KeyValue(m.mappedBy.value.property, id)];
    match Classify(env, m)
    case Neither => true
    case Single =>
      && fuel > 0
      && Load(env, m.ty, crit, fuel - 1).Ok?
      && |Load(env, m.ty, crit, fuel - 1).value| > 0
    case Multi =>
      && fuel > 0
      && m.typeArgument.Some?
      && Load(env, env.runtimeClassOf(m.typeArgument.value), crit, fuel - 1).Ok?
  }

  /** One relationship field succeeds exactly when the class has an Id field and the field
      can be filled from the sub-load keyed by the Id field's current value. */
  lemma ResolveOneSucceeds(env: Env, fs: seq<FieldDecl>, m: FieldDecl, rec: Record, fuel: nat)
    requires m.IsMapped()
    ensures ResolveOne(env, fs, m, rec, fuel).Ok? <==>
              FirstId(fs).Some? && Fillable(env, m, Get(rec, FirstId(fs).value.name), fuel)
  {
  }

  /** A relationship field whose type is assignable from neither Entity nor Collection is
      left unchanged, once the Id field is found. */
  lemma ResolveOneKeepsNeither(env: Env, fs: seq<FieldDecl>, m: FieldDecl, rec: Record, fuel: nat)
    requires m.IsMapped() && FirstId(fs).Some? && Classify(env, m) == Neither
    ensures ResolveOne(env, fs, m, rec, fuel) == Ok(rec)
  {
  }

  /** The relationship pass: with no Id field it fails as soon as there is a MappedBy
      field. */
  lemma ResolveNeedsId(env: Env, fs: seq<FieldDecl>, mapped: seq<FieldDecl>, rec: Record, fuel: nat)
    requires forall f :: f in mapped ==> f.IsMapped()
    ensures |mapped| > 0 && FirstId(fs).None? ==> Resolve(env, fs, mapped, rec, fuel) == Err(NoIdField)
  {
    if |mapped| > 0 && FirstId(fs).None? {
      assert mapped[0] in mapped;
      ResolveOneFills(env, fs, mapped[0], rec, fuel);
    }
  }

  /** The relationship pass: when it succeeds, every MappedBy field is filled from a
      sub-load whose one criterion is its property equal to the first Id field's value. */
  lemma {:induction false} ResolveFields(env: Env, fs: seq<FieldDecl>, mapped: seq<FieldDecl>, rec: Record, fuel: nat)
    requires forall f :: f in mapped ==> f.IsMapped()
    requires DistinctNames(mapped)
    requires FirstId(fs).Some? ==> FirstId(fs).value.name !in Names(mapped)
    ensures Resolve(env, fs, mapped, rec, fuel).Ok? && |mapped| > 0 ==>
              && FirstId(fs).Some?
              && forall i :: 0 <= i < |mapped| ==>
                   Filled(env, mapped[i], Get(rec, FirstId(fs).value.name), Get(rec, mapped[i].name),
                          Get(Resolve(env, fs, mapped, rec, fuel).value, mapped[i].name), fuel)
    decreases |mapped|
  {
    if |mapped| > 0 {
      var m := mapped[0];
      var rest := mapped[1..];
      assert m in mapped;
      assert forall f :: f in rest ==> f in mapped;
      ResolveOneFills(env, fs, m, rec, fuel);
      match ResolveOne(env, fs, m, rec, fuel)
      case Err(_) =>
      case Ok(rec') =>
        assert Resolve(env, fs, mapped, rec, fuel) == Resolve(env, fs, rest, rec', fuel);
        match Resolve(env, fs, rest, rec', fuel)
        case Err(_) =>
        case Ok(done) =>
          var idName := FirstId(fs).value.name;
          assert Get(rec', idName) == Get(rec, idName);
          ResolveFields(env, fs, rest, rec', fuel);
          assert m.name !in Names(rest);
          forall i | 1 <= i < |mapped|
            ensures Filled(env, mapped[i], Get(rec, idName), Get(rec, mapped[i].name), Get(done, mapped[i].name), fuel)
          {
            assert mapped[i] == rest[i - 1];
            assert Get(rec', mapped[i].name) == Get(rec, mapped[i].name);
          }
    }
  }

  /** Every field of `ms` is a MappedBy field that can be filled from the sub-load keyed
      by `id`. */
  predicate AllFillable(env: Env, ms: seq<FieldDecl>, id: Value, fuel: nat) {
    forall i :: 0 <= i < |ms| ==> ms[i].IsMapped() && Fillable(env, ms[i], id, fuel)
  }

  lemma AllFillableCons(env: Env, ms: seq<FieldDecl>, id: Value, fuel: nat)
    requires |ms| > 0
    ensures AllFillable(env, ms, id, fuel) <==>
              ms[0].IsMapped() && Fillable(env, ms[0], id, fuel) && AllFillable(env, ms[1..], id, fuel)
  {
    assert forall i :: 1 <= i < |ms| ==> ms[i] == ms[1..][i - 1];
  }

  /** The relationship pass succeeds exactly when there is no MappedBy field, or the class
      has an Id field and every MappedBy field can be filled from the sub-load keyed by the
      Id field's value; resolving one field never changes the Id field seen by the next. */
  lemma {:induction false} ResolveSucceeds(env: Env, fs: seq<FieldDecl>, mapped: seq<FieldDecl>, rec: Record, fuel: nat)
    requires forall f :: f in mapped ==> f.IsMapped()
    requires FirstId(fs).Some? ==> FirstId(fs).value.name !in Names(mapped)
    ensures Resolve(env, fs, mapped, rec, fuel).Ok? <==>
              |mapped| == 0 || (FirstId(fs).Some? && AllFillable(env, mapped, Get(rec, FirstId(fs).value.name), fuel))
    decreases |mapped|
  {
    if |mapped| > 0 {
      var m := mapped[0];
      var rest := mapped[1..];
      assert m in mapped;
      assert forall f :: f in rest ==> f in mapped;
      ResolveOneSucceeds(env, fs, m, rec, fuel);
      match ResolveOne(env, fs, m, rec, fuel)
      case Err(_) =>
        if FirstId(fs).Some? {
          AllFillableCons(env, mapped, Get(rec, FirstId(fs).value.name), fuel);
        }
      case Ok(rec') =>
        assert Resolve(env, fs, mapped, rec, fuel) == Resolve(env, fs, rest, rec', fuel);
        var idName := FirstId(fs).value.name;
        assert idName != m.name;
        assert Get(rec', idName) == Get(rec, idName);
        ResolveSucceeds(env, fs, rest, rec', fuel);
        AllFillableCons(env, mapped, Get(rec, idName), fuel);
    }
  }

  /** One relationship field ends the same way, success or which error, on any two records
      that agree on the first Id field; only the assigned value depends on the rest. */
  lemma ResolveOneSameKey(env: Env, fs: seq<FieldDecl>, m: FieldDecl, a: Record, b: Record, fuel: nat)
    requires m.IsMapped()
    requires FirstId(fs).Some? ==> Get(a, FirstId(fs).value.name) == Get(b, FirstId(fs).value.name)
    ensures ResolveOne(env, fs, m, a, fuel).Ok? <==> ResolveOne(env, fs, m, b, fuel).Ok?
    ensures ResolveOne(env, fs, m, a, fuel).Err? ==> ResolveOne(env, fs, m, a, fuel) == ResolveOne(env, fs, m, b, fuel)
  {
    assert RelationCriteria(fs, m, a) == RelationCriteria(fs, m, b);
  }

  /** One relationship field as a step of the pass; a field without MappedBy is skipped. */
  function FieldStep(env: Env, fs: seq<FieldDecl>, fuel: nat): (FieldDecl, Record) -> Result<Record> {
    (f: FieldDecl, r: Record) => if f.IsMapped() then ResolveOne(env, fs, f, r, fuel) else Ok(r)
  }

  /** The value the relationship pass keys every sub-load by. */
  function IdKey(fs: seq<FieldDecl>): Record -> Value {
    (r: Record) => if FirstId(fs).Some? then Get(r, FirstId(fs).value.name) else Null
  }

  /** The relationship pass threads the record through the MappedBy fields. */
  lemma {:induction false} ResolveThread(env: Env, fs: seq<FieldDecl>, mapped: seq<FieldDecl>, rec: Record, fuel: nat)
    requires forall f :: f in mapped ==> f.IsMapped()
    ensures Resolve(env, fs, mapped, rec, fuel) == Thread(FieldStep(env, fs, fuel), mapped, rec)
    decreases |mapped|
  {
    if |mapped| > 0 {
      assert mapped[0] in mapped;
      assert forall f :: f in mapped[1..] ==> f in mapped;
      assert FieldStep(env, fs, fuel)(mapped[0], rec) == ResolveOne(env, fs, mapped[0], rec, fuel);
      match ResolveOne(env, fs, mapped[0], rec, fuel)
      case Err(_) =>
      case Ok(rec') => ResolveThread(env, fs, mapped[1..], rec', fuel);
    }
  }

  /** A failing relationship pass fails with the error of the first field, in declaration
      order, that fails on the populated record; every earlier field succeeds. */
  lemma ResolveFirstError(env: Env, fs: seq<FieldDecl>, mapped: seq<FieldDecl>, rec: Record, fuel: nat)
    requires forall f :: f in mapped ==> f.IsMapped()
    requires FirstId(fs).Some? ==> FirstId(fs).value.name !in Names(mapped)
    ensures Resolve(env, fs, mapped, rec, fuel).Err? ==>
              exists i :: 0 <= i < |mapped|
                          && ResolveOne(env, fs, mapped[i], rec, fuel) == Err(Resolve(env, fs, mapped, rec, fuel).error)
                          && forall j :: 0 <= j < i ==> ResolveOne(env, fs, mapped[j], rec, fuel).Ok?
  {
    var step := FieldStep(env, fs, fuel);
    var key := IdKey(fs);
    forall x, a | x in mapped && step(x, a).Ok? ensures key(step(x, a).value) == key(a) {
      if FirstId(fs).Some? {
        assert FirstId(fs).value.name != x.name;
      }
    }
    forall x, a, b | x in mapped && key(a) == key(b) && step(x, a).Err? ensures step(x, b) == step(x, a) {
      ResolveOneSameKey(env, fs, x, a, b, fuel);
    }
    ResolveThread(env, fs, mapped, rec, fuel);
    ThreadFirstError(step, key, mapped, rec);
    assert forall i :: 0 <= i < |mapped| ==> mapped[i] in mapped;
  }

  /** A class Java can declare and the relationship pass can use: distinct field names,
      and an Id field (if any) that is itself populated from the row. */
  predicate WellFormedClass(fs: seq<FieldDecl>) {
    && DistinctNames(fs)
    && (FirstId(fs).Some? ==> !FirstId(fs).value.IsMapped())
  }

  lemma {:induction false} MappedFieldsDistinct(fs: seq<FieldDecl>)
    requires DistinctNames(fs)
    ensures DistinctNames(MappedFields(fs))
    decreases |fs|
  {
    if |fs| > 0 {
      assert forall i :: 1 <= i < |fs| ==> fs[i] == fs[1..][i - 1];
      MappedFieldsDistinct(fs[1..]);
      var tail := MappedFields(fs[1..]);
      if fs[0].IsMapped() {
        forall j | 0 <= j < |tail| ensures tail[j].name != fs[0].name {
          assert tail[j] in fs[1..];
        }
      }
    }
  }

  /** Among distinctly named fields, no plain field shares its name with a MappedBy field;
      nor does an Id field without MappedBy. */
  lemma MappedNames(fs: seq<FieldDecl>)
    requires DistinctNames(fs)
    ensures DistinctNames(MappedFields(fs))
    ensures forall n :: n in PlainNames(fs) ==> n !in Names(MappedFields(fs))
    ensures forall n :: n in Names(MappedFields(fs)) ==> n !in PlainNames(fs)
    ensures FirstId(fs).Some? && !FirstId(fs).value.IsMapped() ==> FirstId(fs).value.name in PlainNames(fs)
  {
    MappedFieldsDistinct(fs);
    var ms := MappedFields(fs);
    forall n | n in Names(ms) ensures n !in PlainNames(fs) {
      var j :| 0 <= j < |ms| && ms[j].name == n;
      assert ms[j] in fs;
    }
  }

  /** One row succeeds exactly when its class can be instantiated, its plain fields
      populate, and its relationship pass succeeds on the populated record. */
  lemma LoadRowSucceeds(env: Env, c: ClassRef, row: Row, fuel: nat)
    ensures LoadRow(env, c, row, fuel).Ok? <==>
              && c in env.classes
              && var fs := env.classes[c];
                 && Populate(env, fs, row, Fresh(c, fs)).Ok?
                 && Resolve(env, fs, MappedFields(fs), Populate(env, fs, row, Fresh(c, fs)).value, fuel).Ok?
  {
  }

  /** A class without relationship fields yields the record its first pass builds. */
  lemma LoadRowWithoutRelations(env: Env, c: ClassRef, row: Row, fuel: nat)
    requires c in env.classes && MappedFields(env.classes[c]) == []
    ensures LoadRow(env, c, row, fuel) == Populate(env, env.classes[c], row, Fresh(c, env.classes[c]))
  {
  }

  /** A statement that executes makes load the row loop over the rows it returns. */
  lemma LoadExecuted(env: Env, c: ClassRef, crit: seq<KeyValue>, rows: seq<Row>, fuel: nat)
    ensures env.execute(SelectStatement(c, crit)) == Some(rows) ==> Load(env, c, crit, fuel) == LoadRows(env, c, rows, fuel)
  {
  }

  /** One row: every plain field holds its own column; the relationship pass does not
      overwrite it. */
  lemma LoadRowPlainFields(env: Env, c: ClassRef, row: Row, fuel: nat)
    requires c in env.classes && DistinctNames(env.classes[c])
    ensures var fs := env.classes[c];
            LoadRow(env, c, row, fuel).Ok? ==>
              forall f :: f in fs && !f.IsMapped() ==>
                ReadColumn(env, row, f) == Ok(Get(LoadRow(env, c, row, fuel).value, f.name))
  {
    var fs := env.classes[c];
    MappedNames(fs);
    match Populate(env, fs, row, Fresh(c, fs))
    case Err(_) =>
    case Ok(rec) =>
      PopulateFromRow(env, fs, row, Fresh(c, fs));
  }

  /** One row of a class with a MappedBy field and no Id field fails once its plain
      fields are populated. */
  lemma LoadRowNeedsId(env: Env, c: ClassRef, row: Row, fuel: nat)
    requires c in env.classes
    requires |MappedFields(env.classes[c])| > 0 && FirstId(env.classes[c]).None?
    ensures var fs := env.classes[c];
            Populate(env, fs, row, Fresh(c, fs)).Ok? ==> LoadRow(env, c, row, fuel) == Err(NoIdField)
  {
    var fs := env.classes[c];
    var ms := MappedFields(fs);
    assert ms[0] in ms;
    match Populate(env, fs, row, Fresh(c, fs))
    case Err(_) =>
    case Ok(rec) =>
      assert LoadRow(env, c, row, fuel) == Resolve(env, fs, ms, rec, fuel);
      assert RelationCriteria(fs, ms[0], rec) == Err(NoIdField);
      assert ResolveOne(env, fs, ms[0], rec, fuel) == Err(NoIdField);
  }

  /** One row of a well-formed class: every MappedBy field, null in the fresh instance, is
      filled from a sub-load keyed by the Id field's value as populated from this row. */
  lemma LoadRowRelations(env: Env, c: ClassRef, row: Row, fuel: nat)
    requires c in env.classes && WellFormedClass(env.classes[c])
    ensures var fs := env.classes[c];
            var r := LoadRow(env, c, row, fuel);
            r.Ok? ==> forall i :: 0 <= i < |fs| && fs[i].IsMapped() ==>
                        && FirstId(fs).Some?
                        && Filled(env, fs[i], Get(r.value, FirstId(fs).value.name), Null, Get(r.value, fs[i].name), fuel)
  {
    var fs := env.classes[c];
    MappedNames(fs);
    match Populate(env, fs, row, Fresh(c, fs))
    case Err(_) =>
    case Ok(rec) =>
      ResolveFields(env, fs, MappedFields(fs), rec, fuel);
      match Resolve(env, fs, MappedFields(fs), rec, fuel)
      case Err(_) =>
      case Ok(done) => ResolvedRow(env, fs, rec, done, fuel);
  }

  /** The fields of a populated record `rec` after a successful relationship pass `done`. */
  lemma ResolvedRow(env: Env, fs: seq<FieldDecl>, rec: Record, done: Record, fuel: nat)
    requires WellFormedClass(fs)
    requires forall n :: n in rec.fields && n !in PlainNames(fs) ==> rec.fields[n] == Null
    requires Resolve(env, fs, MappedFields(fs), rec, fuel) == Ok(done)
    requires |MappedFields(fs)| > 0 ==>
               && FirstId(fs).Some?
               && forall i :: 0 <= i < |MappedFields(fs)| ==>
                    Filled(env, MappedFields(fs)[i], Get(rec, FirstId(fs).value.name), Get(rec, MappedFields(fs)[i].name),
                           Get(done, MappedFields(fs)[i].name), fuel)
    ensures forall i :: 0 <= i < |fs| && fs[i].IsMapped() ==>
              && FirstId(fs).Some?
              && Filled(env, fs[i], Get(done, FirstId(fs).value.name), Null, Get(done, fs[i].name), fuel)
  {
    var ms := MappedFields(fs);
    MappedNames(fs);
    forall i | 0 <= i < |fs| && fs[i].IsMapped()
      ensures FirstId(fs).Some?
      ensures Filled(env, fs[i], Get(done, FirstId(fs).value.name), Null, Get(done, fs[i].name), fuel)
    {
      assert fs[i] in ms;
      var j :| 0 <= j < |ms| && ms[j] == fs[i];
      assert fs[i].name !in PlainNames(fs);
    }
  }

  /** The depth bound only cuts the recursion off: a load that ends within some depth
      other than by running out of depth, successfully or with any other error, gives the
      same outcome under any larger depth. */
  lemma {:induction false} LoadFuel(env: Env, c: ClassRef, crit: seq<KeyValue>, fuel: nat, deeper: nat)
    requires fuel <= deeper
    requires Load(env, c, crit, fuel) != Err(StackOverflow)
    ensures Load(env, c, crit, deeper) == Load(env, c, crit, fuel)
    decreases fuel, 5, 0
  {
    match env.execute(SelectStatement(c, crit))
    case None =>
    case Some(rows) => LoadRowsFuel(env, c, rows, fuel, deeper);
  }

  lemma {:induction false} LoadRowsFuel(env: Env, c: ClassRef, rows: seq<Row>, fuel: nat, deeper: nat)
    requires fuel <= deeper
    requires LoadRows(env, c, rows, fuel) != Err(StackOverflow)
    ensures LoadRows(env, c, rows, deeper) == LoadRows(env, c, rows, fuel)
    decreases fuel, 4, |rows|
  {
    if |rows| > 0 {
      LoadRowFuel(env, c, rows[0], fuel, deeper);
      if LoadRow(env, c, rows[0], fuel).Ok? {
        LoadRowsFuel(env, c, rows[1..], fuel, deeper);
      }
    }
  }

  lemma {:induction false} LoadRowFuel(env: Env, c: ClassRef, row: Row, fuel: nat, deeper: nat)
    requires fuel <= deeper
    requires LoadRow(env, c, row, fuel) != Err(StackOverflow)
    ensures LoadRow(env, c, row, deeper) == LoadRow(env, c, row, fuel)
    decreases fuel, 3, 0
  {
    if c in env.classes {
      var fs := env.classes[c];
      match Populate(env, fs, row, Fresh(c, fs))
      case Err(_) =>
      case Ok(rec) => ResolveFuel(env, fs, MappedFields(fs), rec, fuel, deeper);
    }
  }

  lemma {:induction false} ResolveFuel(env: Env, fs: seq<FieldDecl>, mapped: seq<FieldDecl>, rec: Record, fuel: nat, deeper: nat)
    requires forall f :: f in mapped ==> f.IsMapped()
    requires fuel <= deeper
    requires Resolve(env, fs, mapped, rec, fuel) != Err(StackOverflow)
    ensures Resolve(env, fs, mapped, rec, deeper) == Resolve(env, fs, mapped, rec, fuel)
    decreases fuel, 2, |mapped|
  {
    if |mapped| > 0 {
      assert mapped[0] in mapped;
      assert forall f :: f in mapped[1..] ==> f in mapped;
      ResolveOneFuel(env, fs, mapped[0], rec, fuel, deeper);
      match ResolveOne(env, fs, mapped[0], rec, fuel)
      case Err(_) =>
      case Ok(rec') => ResolveFuel(env, fs, mapped[1..], rec', fuel, deeper);
    }
  }

  lemma {:induction false} ResolveOneFuel(env: Env, fs: seq<FieldDecl>, m: FieldDecl, rec: Record, fuel: nat, deeper: nat)
    requires m.IsMapped()
    requires fuel <= deeper
    requires ResolveOne(env, fs, m, rec, fuel) != Err(StackOverflow)
    ensures ResolveOne(env, fs, m, rec, deeper) == ResolveOne(env, fs, m, rec, fuel)
    decreases fuel, 1, 0
  {
    match SubLoad(env, fs, m, rec)
    case None => ResolveOneShallow(env, fs, m, rec, fuel, deeper);
    case Some((target, crit)) => ResolveOneSubLoadFuel(env, fs, m, rec, fuel, deeper, target, crit);
  }

  /** The fuel step for a relationship field that issues a sub-load. */
  lemma {:induction false} ResolveOneSubLoadFuel(env: Env, fs: seq<FieldDecl>, m: FieldDecl, rec: Record, fuel: nat, deeper: nat,
                                                 target: ClassRef, crit: seq<KeyValue>)
    requires m.IsMapped() && fuel <= deeper && SubLoad(env, fs, m, rec) == Some((target, crit))
    requires ResolveOne(env, fs, m, rec, fuel) != Err(StackOverflow)
    ensures ResolveOne(env, fs, m, rec, deeper) == ResolveOne(env, fs, m, rec, fuel)
    decreases fuel, 0, 0
  {
    ResolveOneDeep(env, fs, m, rec, fuel, deeper, target, crit);
    if fuel > 0 {
      LoadFuel(env, target, crit, fuel - 1, deeper - 1);
    }
  }

  /** The sub-load a relationship field issues, as its class and criteria: none when the
      field fails before it, or is of neither kind. */
  function SubLoad(env: Env, fs: seq<FieldDecl>, m: FieldDecl, rec: Record): Option<(ClassRef, seq<KeyValue>)>
    requires m.IsMapped()
  {
    var kind := Classify(env, m);
    match RelationCriteria(fs, m, rec)
    case Err(_) => None
    case Ok(crit) =>
      if kind == Neither then None
      else match ChildClass(env, m, kind)
        case Err(_) => None
        case Ok(target) => Some((target, crit))
  }

  /** A relationship field without a sub-load ends the same way at every depth. */
  lemma ResolveOneShallow(env: Env, fs: seq<FieldDecl>, m: FieldDecl, rec: Record, fuel: nat, deeper: nat)
    requires m.IsMapped() && SubLoad(env, fs, m, rec).None?
    ensures ResolveOne(env, fs, m, rec, deeper) == ResolveOne(env, fs, m, rec, fuel)
  {
  }

  /** A relationship field with a sub-load runs out of depth at depth 0 or when its
      sub-load does, and ends the same way at a larger depth when its sub-load does. */
  lemma ResolveOneDeep(env: Env, fs: seq<FieldDecl>, m: FieldDecl, rec: Record, fuel: nat, deeper: nat,
                       target: ClassRef, crit: seq<KeyValue>)
    requires m.IsMapped() && fuel <= deeper && SubLoad(env, fs, m, rec) == Some((target, crit))
    ensures fuel == 0 ==> ResolveOne(env, fs, m, rec, fuel) == Err(StackOverflow)
    ensures fuel > 0 && ResolveOne(env, fs, m, rec, fuel) != Err(StackOverflow) ==>
              Load(env, target, crit, fuel - 1) != Err(StackOverflow)
    ensures fuel > 0 && Load(env, target, crit, deeper - 1) == Load(env, target, crit, fuel - 1) ==>
              ResolveOne(env, fs, m, rec, deeper) == ResolveOne(env, fs, m, rec, fuel)
  {
  }

  /** Over the map-of-tables database, load for class `c` builds one record from each
      row of the table named after `c` that satisfies every criterion, in table order;
      a missing table fails the load. */
  lemma LoadFromTable(env: Env, db: FakeDb.Database, c: ClassRef, crit: seq<KeyValue>, fuel: nat)
    requires env.execute == FakeDb.Driver(db)
    requires Query.SpaceFree(c.simpleName) && Query.KeysSpaceFree(crit)
    ensures c.simpleName !in db ==> Load(env, c, crit, fuel) == Err(SqlFailure)
    ensures Load(env, c, crit, fuel).Ok? ==>
              && c.simpleName in db
              && var rows := FakeDb.Select(db[c.simpleName], crit);
                 && |Load(env, c, crit, fuel).value| == |rows|
                 && forall i :: 0 <= i < |rows| ==>
                      && FakeDb.Matches(rows[i], crit)
                      && LoadRow(env, c, rows[i], fuel) == Ok(Load(env, c, crit, fuel).value[i])
  {
    FakeDb.ExecuteSelect(db, c.simpleName, crit);
    LoadOneRecordPerRow(env, c, crit, fuel);
    if c.simpleName in db {
      var rows := FakeDb.Select(db[c.simpleName], crit);
      forall i | 0 <= i < |rows| ensures FakeDb.Matches(rows[i], crit) {
        assert rows[i] in rows;
      }
    }
  }
}

=== FILE: outcomes.dfy ===
/** Optional values, and the failures a call into the finder can end in. */
module Outcomes {

  datatype Option<+T> = None | Some(value: T)

  /** Every way `load` and `findByQuery` can throw instead of returning a list. */
  datatype Error =
    | SqlFailure            // prepareStatement / executeQuery threw
    | NoConstructor(className: string) // no no-argument constructor to instantiate
    | ColumnMissing(column: string)     // rs.getObject(name, type) on an unknown column label
    | CoercionFailed(column: string)    // rs.getObject(name, type) could not convert the value
    | NoIdField             // Optional.get() on a class without an Id field
    | IndexOutOfBounds      // childBeans.get(0) on an empty child list
    | ClassCast             // a collection field whose generic type is not parameterized
    | StackOverflow         // relationship recursion deeper than the model's fuel
    | NoColumn              // rs.getObject(1) on a row without columns

  datatype Result<+T> = Ok(value: T) | Err(error: Error)

  /** Apply a step that may fail to every element in order; the first failure aborts. */
  function Traverse<T, U>(step: T -> Result<U>, xs: seq<T>): Result<seq<U>>
    decreases |xs|
  {
    if |xs| == 0 then Ok([])
    else match step(xs[0])
      case Err(e) => Err(e)
      case Ok(y) =>
        match Traverse(step, xs[1..])
        case Err(e) => Err(e)
        case Ok(ys) => Ok([y] + ys)
  }

  /** A traversal succeeds exactly when every step does, and then gives each step's
      result in order. */
  lemma {:induction false} TraverseInOrder<T, U>(step: T -> Result<U>, xs: seq<T>)
    ensures Traverse(step, xs).Ok? <==> forall i :: 0 <= i < |xs| ==> step(xs[i]).Ok?
    ensures Traverse(step, xs).Ok? ==>
              && |Traverse(step, xs).value| == |xs|
              && forall i :: 0 <= i < |xs| ==> step(xs[i]) == Ok(Traverse(step, xs).value[i])
    decreases |xs|
  {
    if |xs| > 0 {
      var tail := xs[1..];
      TraverseInOrder(step, tail);
      assert forall i :: 1 <= i < |xs| ==> xs[i] == tail[i - 1];
    }
  }

  /** A failing traversal fails with the error of the first failing step; every earlier
      step succeeds. */
  lemma {:induction false} TraverseFirstError<T, U>(step: T -> Result<U>, xs: seq<T>)
    ensures Traverse(step, xs).Err? ==>
              exists i :: 0 <= i < |xs| && step(xs[i]) == Err(Traverse(step, xs).error)
                          && forall j :: 0 <= j < i ==> step(xs[j]).Ok?
    decreases |xs|
  {
    if |xs| > 0 && step(xs[0]).Ok? {
      var tail := xs[1..];
      TraverseFirstError(step, tail);
      if Traverse(step, tail).Err? {
        var k :| 0 <= k < |tail| && step(tail[k]) == Err(Traverse(step, tail).error)
                 && forall j :: 0 <= j < k ==> step(tail[j]).Ok?;
        assert xs[k + 1] == tail[k];
        assert forall j :: 1 <= j < k + 1 ==> xs[j] == tail[j - 1];
      }
    }
  }

  /** Thread a state through a step for every element in order; the first failure aborts. */
  function Thread<T, S>(step: (T, S) -> Result<S>, xs: seq<T>, s: S): Result<S>
    decreases |xs|
  {
    if |xs| == 0 then Ok(s)
    else match step(xs[0], s)
      case Err(e) => Err(e)
      case Ok(s') => Thread(step, xs[1..], s')
  }

  /** When every step keeps a key of the state, and whether and how a step fails depends
      only on that key, a failing thread fails with the error the first failing element
      gives on the initial state, and every earlier element succeeds on it. */
  lemma {:induction false} ThreadFirstError<T, S, K>(step: (T, S) -> Result<S>, key: S -> K, xs: seq<T>, s: S)
    requires forall x, a :: x in xs && step(x, a).Ok? ==> key(step(x, a).value) == key(a)
    requires forall x, a, b :: x in xs && key(a) == key(b) && step(x, a).Err? ==> step(x, b) == step(x, a)
    ensures Thread(step, xs, s).Err? ==>
              exists i :: 0 <= i < |xs| && step(xs[i], s) == Err(Thread(step, xs, s).error)
                          && forall j :: 0 <= j < i ==> step(xs[j], s).Ok?
    decreases |xs|
  {
    if |xs| > 0 && step(xs[0], s).Ok? {
      var s' := step(xs[0], s).value;
      var tail := xs[1..];
      assert xs[0] in xs;
      assert forall x :: x in tail ==> x in xs;
      ThreadFirstError(step, key, tail, s');
      if Thread(step, tail, s').Err? {
        var k :| 0 <= k < |tail| && step(tail[k], s') == Err(Thread(step, tail, s').error)
                 && forall j :: 0 <= j < k ==> step(tail[j], s').Ok?;
        assert xs[k + 1] == tail[k];
        assert step(xs[k + 1], s) == step(tail[k], s');
        forall j | 1 <= j < k + 1 ensures step(xs[j], s).Ok? {
          assert xs[j] == tail[j - 1];
          assert xs[j] in xs;
        }
      }
    }
  }
}


=== FILE: query.dfy ===
/** The query text `selectQuery` builds, and a reader that recovers its parts. */
module Query {
  import opened Outcomes
  import opened Values

  const SelectPrefix: string := "select * from "

  /** True when `s` holds no blank, as a Java identifier or column name does not. */
  predicate SpaceFree(s: string) { ' ' !in s }

  predicate KeysSpaceFree(crit: seq<KeyValue>) {
    forall i :: 0 <= i < |crit| ==> SpaceFree(crit[i].key)
  }

  /** The column names of the criteria, in list order. */
  function Keys(crit: seq<KeyValue>): (ks: seq<string>)
    ensures |ks| == |crit| && forall i :: 0 <= i < |crit| ==> ks[i] == crit[i].key
  {
    seq(|crit|, i requires 0 <= i < |crit| => crit[i].key)
  }

  /** The `key=?` term of each criterion, in list order. */
  function Terms(crit: seq<KeyValue>): (ts: seq<string>)
    ensures |ts| == |crit| && forall i :: 0 <= i < |crit| ==> ts[i] == crit[i].key + "=?"
  {
    seq(|crit|, i requires 0 <= i < |crit| => crit[i].key + "=?")
  }

  /** The reference reading of the where clause: the terms separated by " and ". */
  function JoinAnd(ts: seq<string>): string
    decreases |ts|
  {
    if |ts| == 0 then ""
    else if |ts| == 1 then ts[0]
    else ts[0] + " and " + JoinAnd(ts[1..])
  }

  /** The loop that appends the terms: `j` counts the terms already written, and
      every term after the first is preceded by " and ". */
  function AppendTerms(query: string, crit: seq<KeyValue>, j: nat): string
    decreases |crit|
  {
    if |crit| == 0 then query
    else AppendTerms(query + (if j > 0 then " and " else "") + crit[0].key + "=?", crit[1..], j + 1)
  }

  /** The append loop writes the terms joined by " and ". */
  lemma {:induction false} AppendTermsJoin(query: string, crit: seq<KeyValue>, j: nat)
    requires |crit| > 0
    ensures AppendTerms(query, crit, j) == query + (if j > 0 then " and " else "") + JoinAnd(Terms(crit))
    decreases |crit|
  {
    var sep := if j > 0 then " and " else "";
    var t := crit[0].key + "=?";
    if |crit| == 1 {
      assert JoinAnd(Terms(crit)) == t;
    } else {
      assert query + sep + crit[0].key + "=?" == query + sep + t;
      AppendTermsJoin(query + sep + t, crit[1..], j + 1);
      assert Terms(crit)[1..] == Terms(crit[1..]);
      var rest := JoinAnd(Terms(crit[1..]));
      assert JoinAnd(Terms(crit)) == t + " and " + rest;
      assert query + sep + t + " and " + rest == query + sep + (t + " and " + rest);
    }
  }

  /** selectQuery: the table is the class's simple name; with criteria, a where clause
      of `key=?` terms in list order, separated by " and ". */
  function SelectQuery(simpleName: string, crit: seq<KeyValue>): (q: string)
    ensures |crit| == 0 ==> q == SelectPrefix + simpleName
    ensures |crit| > 0 ==> q == SelectPrefix + simpleName + " where " + JoinAnd(Terms(crit))
  {
    var query := SelectPrefix + simpleName;
    if |crit| > 0 then
      AppendTermsJoin(query + " where ", crit, 0);
      AppendTerms(query + " where ", crit, 0)
    else query
  }

  /** The position of the first blank of `s`. */
  function FirstSpace(s: string): (i: nat)
    requires ' ' in s
    ensures i < |s| && s[i] == ' ' && ' ' !in s[..i]
  {
    if s[0] == ' ' then 0
    else
      var k := FirstSpace(s[1..]);
      assert s[..k + 1] == [s[0]] + s[1..][..k];
      k + 1
  }

  /** `s` split at every blank (empty words kept). */
  function Tokens(s: string): (ts: seq<string>)
    ensures |ts| > 0
    decreases |s|
  {
    if ' ' !in s then [s]
    else
      var i := FirstSpace(s);
      [s[..i]] + Tokens(s[i + 1..])
  }

  /** A blank-free word followed by a blank splits off as the first word. */
  lemma TokensCons(a: string, b: string)
    requires SpaceFree(a)
    ensures Tokens(a + " " + b) == [a] + Tokens(b)
  {
    var s := a + " " + b;
    assert s[|a|] == ' ';
    var i := FirstSpace(s);
    assert forall k :: 0 <= k < |a| ==> s[k] == a[k];
    assert forall k :: 0 <= k < i ==> s[..i][k] == s[k];
    assert i == |a|;
    assert s[..i] == a;
    assert s[i + 1..] == b;
  }

  /** The words of a joined where clause: each term, with "and" between neighbours. */
  function Interleave(ts: seq<string>): (ws: seq<string>)
    ensures |ws| == if |ts| == 0 then 0 else 2 * |ts| - 1
    ensures forall i :: 0 <= i < |ws| ==> ws[i] == if i % 2 == 0 then ts[i / 2] else "and"
    decreases |ts|
  {
    if |ts| <= 1 then ts
    else
      var rest := Interleave(ts[1..]);
      var ws := [ts[0], "and"] + rest;
      assert forall i :: 2 <= i < |ws| ==> ws[i] == rest[i - 2];
      ws
  }

  /** The words of the joined where clause are the terms interleaved with "and". */
  lemma {:induction false} JoinAndTokens(ts: seq<string>)
    requires |ts| > 0 && forall i :: 0 <= i < |ts| ==> SpaceFree(ts[i])
    ensures Tokens(JoinAnd(ts)) == Interleave(ts)
    decreases |ts|
  {
    if |ts| > 1 {
      var rest := JoinAnd(ts[1..]);
      AndSpelled(ts[0], rest);
      TwoWords(ts[0], "and", rest);
      JoinAndTokens(ts[1..]);
      assert [ts[0], "and"] + Interleave(ts[1..]) == Interleave(ts);
    }
  }

  /** The " and " separator as two blanks around the word "and". */
  lemma AndSpelled(a: string, b: string)
    ensures a + " and " + b == a + " " + ("and" + " " + b)
  {
    assert " and " == " " + ("and" + " ");
    assert " and " + b == " " + ("and" + " " + b);
  }

  /** The query text as the words "select", "*", "from" each followed by a blank. */
  lemma PrefixWords(simpleName: string, crit: seq<KeyValue>, tail: string)
    requires tail == if |crit| == 0 then simpleName else simpleName + " " + ("where" + " " + JoinAnd(Terms(crit)))
    ensures SelectQuery(simpleName, crit) == "select" + " " + ("*" + " " + ("from" + " " + tail))
  {
    if |crit| > 0 {
      WherePrefix(simpleName, JoinAnd(Terms(crit)));
    } else {
      BarePrefix(simpleName);
    }
  }

  /** The query text regrouped word by word, with and without a where clause. */
  lemma BarePrefix(n: string)
    ensures SelectPrefix + n == "select" + " " + ("*" + " " + ("from" + " " + n))
  {
    var p := "select" + " " + ("*" + " " + ("from" + " "));
    assert SelectPrefix == p;
    assert p + n == "select" + " " + ("*" + " " + ("from" + " " + n));
  }

  lemma WherePrefix(n: string, j: string)
    ensures SelectPrefix + n + " where " + j == "select" + " " + ("*" + " " + ("from" + " " + (n + " " + ("where" + " " + j))))
  {
    var p := "select" + " " + ("*" + " " + ("from" + " "));
    var t := n + " " + ("where" + " " + j);
    assert SelectPrefix == p;
    assert " where " == " " + ("where" + " ");
    assert n + " where " + j == t;
    assert SelectPrefix + n + " where " + j == p + t;
    assert p + t == "select" + " " + ("*" + " " + ("from" + " " + t));
  }

  /** The words of the query text: "select", "*", "from", the table, and, when there are
      criteria, "where" followed by the terms with "and" between neighbours. So the query
      has exactly one `key=?` term per criterion, in list order, and one "and" fewer. */
  lemma SelectQueryTokens(simpleName: string, crit: seq<KeyValue>)
    requires SpaceFree(simpleName) && KeysSpaceFree(crit)
    ensures Tokens(SelectQuery(simpleName, crit))
            == ["select", "*", "from", simpleName]
               + (if |crit| == 0 then [] else ["where"] + Interleave(Terms(crit)))
  {
    if |crit| == 0 {
      BareWords(simpleName, crit);
    } else {
      WhereClauseWords(simpleName, crit);
    }
  }

  /** The words of the text without a where clause. */
  lemma BareWords(simpleName: string, crit: seq<KeyValue>)
    requires SpaceFree(simpleName) && |crit| == 0
    ensures Tokens(SelectQuery(simpleName, crit)) == ["select", "*", "from", simpleName]
  {
    PrefixWords(simpleName, crit, simpleName);
    LeadingWords(simpleName);
  }

  /** The words of the text with a where clause. */
  lemma WhereClauseWords(simpleName: string, crit: seq<KeyValue>)
    requires SpaceFree(simpleName) && KeysSpaceFree(crit) && |crit| > 0
    ensures Tokens(SelectQuery(simpleName, crit))
            == ["select", "*", "from", simpleName] + (["where"] + Interleave(Terms(crit)))
  {
    var tail := simpleName + " " + ("where" + " " + JoinAnd(Terms(crit)));
    PrefixWords(simpleName, crit, tail);
    LeadingWords(tail);
    WhereWords(simpleName, crit);
    Regroup(simpleName, Interleave(Terms(crit)));
  }

  /** The word list regrouped around the table name. Kept apart from its caller: in the
      caller's context, where the query text is in scope, the solver loses its way. */
  lemma Regroup(n: string, ws: seq<string>)
    ensures ["select", "*", "from"] + ([n, "where"] + ws) == ["select", "*", "from", n] + (["where"] + ws)
  {
  }

  /** The three leading words of the select prefix. */
  lemma LeadingWords(tail: string)
    ensures Tokens("select" + " " + ("*" + " " + ("from" + " " + tail))) == ["select", "*", "from"] + Tokens(tail)
  {
    ThreeWords("select", "*", "from", tail);
  }

  /** Three blank-free words, each followed by a blank, split off the front. */
  lemma ThreeWords(a: string, b: string, c: string, tail: string)
    requires SpaceFree(a) && SpaceFree(b) && SpaceFree(c)
    ensures Tokens(a + " " + (b + " " + (c + " " + tail))) == [a, b, c] + Tokens(tail)
  {
    var rest := b + " " + (c + " " + tail);
    TwoWords(b, c, tail);
    TokensCons(a, rest);
    Cons3(a, b, c, Tokens(tail));
  }

  /** Three single-word prefixes joined into one, kept apart from its caller for the
      same reason as Regroup. */
  lemma Cons3(a: string, b: string, c: string, ws: seq<string>)
    ensures [a] + ([b, c] + ws) == [a, b, c] + ws
  {
  }

  /** The words from the table name on: the table, "where", then the terms. */
  lemma WhereWords(simpleName: string, crit: seq<KeyValue>)
    requires SpaceFree(simpleName) && KeysSpaceFree(crit) && |crit| > 0
    ensures Tokens(simpleName + " " + ("where" + " " + JoinAnd(Terms(crit))))
            == [simpleName, "where"] + Interleave(Terms(crit))
  {
    JoinAndTokens(Terms(crit));
    TwoWords(simpleName, "where", JoinAnd(Terms(crit)));
  }

  /** Two blank-free words, each followed by a blank, split off the front. */
  lemma TwoWords(a: string, b: string, tail: string)
    requires SpaceFree(a) && SpaceFree(b)
    ensures Tokens(a + " " + (b + " " + tail)) == [a, b] + Tokens(tail)
  {
    var t2 := b + " " + tail;
    TokensCons(b, tail);
    TokensCons(a, t2);
    assert [a] + ([b] + Tokens(tail)) == [a, b] + Tokens(tail);
  }

  /** True when `w` occurs in `s` starting at position `i`. */
  predicate OccursAt(s: string, i: nat, w: string) {
    i + |w| <= |s| && s[i..i + |w|] == w
  }

  /** Without criteria the text has no where clause at all: " where " occurs nowhere in it. */
  lemma NoWhereWithoutCriteria(simpleName: string)
    requires SpaceFree(simpleName)
    ensures forall i: nat :: !OccursAt(SelectQuery(simpleName, []), i, " where ")
  {
    var q := SelectQuery(simpleName, []);
    assert q[..14] == SelectPrefix;
    forall i: nat | i + 7 <= |q|
      ensures !OccursAt(q, i, " where ")
    {
      var k := if i >= 14 || (i != 6 && i != 8 && i != 13) then 0 else if i == 13 then 6 else 1;
      if i >= 14 {
        assert q[i] == simpleName[i - 14];
      } else if i == 13 {
        assert q[19] == simpleName[5];
      } else {
        assert q[i + k] == SelectPrefix[i + k];
      }
      assert q[i..i + 7][k] == q[i + k];
      assert q[i + k] != " where "[k];
    }
  }

  /** How often the word `w` occurs in `ws`. */
  function Count(ws: seq<string>, w: string): (n: nat)
    ensures n <= |ws|
    decreases |ws|
  {
    if |ws| == 0 then 0 else (if ws[0] == w then 1 else 0) + Count(ws[1..], w)
  }

  /** The where clause of n terms holds exactly n - 1 "and" separators: a term ends in
      "=?" and so is never the word "and". */
  lemma {:induction false} WhereClauseSeparators(crit: seq<KeyValue>)
    requires |crit| > 0
    ensures Count(Interleave(Terms(crit)), "and") == |crit| - 1
    decreases |crit|
  {
    var t := crit[0].key + "=?";
    assert t[|t| - 1] == '?';
    assert t != "and";
    if |crit| > 1 {
      var ws := Interleave(Terms(crit));
      assert Terms(crit)[1..] == Terms(crit[1..]);
      assert ws == [t, "and"] + Interleave(Terms(crit[1..]));
      assert ws[1..][1..] == Interleave(Terms(crit[1..]));
      WhereClauseSeparators(crit[1..]);
    }
  }

  /** The parts a select text names: its table and the columns of its where terms. */
  datatype SelectText = SelectText(table: string, keys: seq<string>)

  predicate IsTerm(w: string) { |w| >= 2 && w[|w| - 2..] == "=?" }

  /** Reads `key=? and key=? ...` back into its keys. */
  function ParseTerms(ws: seq<string>): (r: Option<seq<string>>)
    ensures r.Some? ==> |ws| == 2 * |r.value| - 1
    decreases |ws|
  {
    if |ws| == 0 || !IsTerm(ws[0]) then None
    else
      var key := ws[0][..|ws[0]| - 2];
      if |ws| == 1 then Some([key])
      else if ws[1] != "and" then None
      else match ParseTerms(ws[2..])
        case None => None
        case Some(rest) => Some([key] + rest)
  }

  /** Reads the words of a query text of the shape SelectQuery writes back into its table
      and keys. */
  function ParseWords(ws: seq<string>): (r: Option<SelectText>)
    ensures r.Some? ==> |ws| >= 4 && ws[..3] == ["select", "*", "from"] && ws[3] == r.value.table
  {
    if |ws| < 4 || ws[..3] != ["select", "*", "from"] then None
    else if |ws| == 4 then Some(SelectText(ws[3], []))
    else if ws[4] != "where" then None
    else match ParseTerms(ws[5..])
      case None => None
      case Some(keys) => Some(SelectText(ws[3], keys))
  }

  /** Reads a query text of the shape SelectQuery writes back into its table and keys. */
  function ParseSelect(q: string): (r: Option<SelectText>)
    ensures r.Some? ==> |Tokens(q)| >= 4 && Tokens(q)[..3] == ["select", "*", "from"] && Tokens(q)[3] == r.value.table
  {
    ParseWords(Tokens(q))
  }

  /** Reading the interleaved terms back gives the keys in list order. */
  lemma {:induction false} ParseTermsInterleave(crit: seq<KeyValue>)
    requires |crit| > 0
    ensures ParseTerms(Interleave(Terms(crit))) == Some(Keys(crit))
    decreases |crit|
  {
    var ws := Interleave(Terms(crit));
    var t := crit[0].key + "=?";
    assert ws[0] == t;
    assert t[|t| - 2..] == "=?" && t[..|t| - 2] == crit[0].key;
    if |crit| > 1 {
      assert Terms(crit)[1..] == Terms(crit[1..]);
      assert ws[2..] == Interleave(Terms(crit[1..]));
      ParseTermsInterleave(crit[1..]);
      KeysCons(crit);
    } else {
      assert Keys(crit) == [crit[0].key];
    }
  }

  /** The keys of a non-empty list: the first key, then the keys of the rest. */
  lemma KeysCons(crit: seq<KeyValue>)
    requires |crit| > 0
    ensures Keys(crit) == [crit[0].key] + Keys(crit[1..])
  {
    assert forall i :: 1 <= i < |crit| ==> Keys(crit)[i] == Keys(crit[1..])[i - 1];
  }

  /** Round trip: reading the text SelectQuery builds gives back the table name and the
      criteria's keys in list order, whenever none of them contains a blank. */
  lemma ParseSelectQuery(simpleName: string, crit: seq<KeyValue>)
    requires SpaceFree(simpleName) && KeysSpaceFree(crit)
    ensures ParseSelect(SelectQuery(simpleName, crit)) == Some(SelectText(simpleName, Keys(crit)))
  {
    SelectQueryTokens(simpleName, crit);
    if |crit| > 0 {
      ParseTermsInterleave(crit);
      ParseWordsWhere(simpleName, Interleave(Terms(crit)), Keys(crit));
    } else {
      ParseWordsBare(simpleName);
    }
  }

  /** The reader on the words of a text without criteria. */
  lemma ParseWordsBare(n: string)
    ensures ParseWords(["select", "*", "from", n] + []) == Some(SelectText(n, []))
  {
    var ws := ["select", "*", "from", n] + [];
    assert ws[..3] == ["select", "*", "from"];
  }

  /** The reader on the words of a text with a where clause of readable terms. */
  lemma ParseWordsWhere(n: string, terms: seq<string>, keys: seq<string>)
    requires ParseTerms(terms) == Some(keys)
    ensures ParseWords(["select", "*", "from", n] + (["where"] + terms)) == Some(SelectText(n, keys))
  {
    var ws := ["select", "*", "from", n] + (["where"] + terms);
    assert ws[..3] == ["select", "*", "from"];
    assert ws[5..] == terms;
  }
}

=== FILE: schema.dfy ===
/** The declared fields of a record class and the relationship metadata attached to them. */
module Schema {
  import opened Outcomes
  import opened Values

  /** The MappedBy annotation. Only `property` (the foreign column on the related
      class) influences loading; `reference` and `lazy` are never read. */
  datatype MappedBy = MappedBy(property: string, reference: string, lazy: bool := false)

  /** One declared field, in declaration order. `typeArgument` is the first actual type
      argument of the field's generic type, or None when that type is not parameterized. */
  datatype FieldDecl = FieldDecl(
    name: string,
    ty: ClassRef,
    typeArgument: Option<string>,
    isId: bool,
    mappedBy: Option<MappedBy>)
  {
    predicate IsMapped() { mappedBy.Some? }
  }

  /** Java forbids two declared fields of one class with the same name. */
  predicate DistinctNames(fs: seq<FieldDecl>) {
    forall i, j :: 0 <= i < j < |fs| ==> fs[i].name != fs[j].name
  }

  /** The names of the fields that are populated from the row (no MappedBy). */
  function PlainNames(fs: seq<FieldDecl>): (names: set<string>)
    ensures forall f :: f in fs && !f.IsMapped() ==> f.name in names
    ensures forall n :: n in names ==> exists f :: f in fs && !f.IsMapped() && f.name == n
  {
    set f | f in fs && !f.IsMapped() :: f.name
  }

  /** The names of all declared fields. */
  function Names(fs: seq<FieldDecl>): (names: set<string>)
    ensures forall f :: f in fs ==> f.name in names
    ensures forall n :: n in names ==> exists f :: f in fs && f.name == n
  {
    set f | f in fs :: f.name
  }

  /** The fields carrying MappedBy, in declaration order (the stream filter of the second pass). */
  function MappedFields(fs: seq<FieldDecl>): (ms: seq<FieldDecl>)
    ensures forall f :: f in ms <==> f in fs && f.IsMapped()
    ensures |ms| <= |fs|
  {
    if |fs| == 0 then []
    else if fs[0].IsMapped() then [fs[0]] + MappedFields(fs[1..])
    else MappedFields(fs[1..])
  }

  /** The positions, from `i` on, of the fields carrying MappedBy: all of them, each once,
      in increasing order. */
  function MappedPositions(fs: seq<FieldDecl>, i: nat): (ps: seq<nat>)
    requires i <= |fs|
    ensures forall k :: 0 <= k < |ps| ==> i <= ps[k] < |fs| && fs[ps[k]].IsMapped()
    ensures forall k, l :: 0 <= k < l < |ps| ==> ps[k] < ps[l]
    ensures forall j :: i <= j < |fs| && fs[j].IsMapped() ==> j in ps
    decreases |fs| - i
  {
    if i == |fs| then []
    else if fs[i].IsMapped() then [i] + MappedPositions(fs, i + 1)
    else MappedPositions(fs, i + 1)
  }

  /** The stream filter keeps declaration order: the k-th MappedBy field is the field at
      the k-th MappedBy position. */
  lemma MappedFieldsInOrder(fs: seq<FieldDecl>)
    ensures |MappedFields(fs)| == |MappedPositions(fs, 0)|
    ensures forall k :: 0 <= k < |MappedFields(fs)| ==> MappedFields(fs)[k] == fs[MappedPositions(fs, 0)[k]]
  {
    MappedFieldsFrom(fs, 0);
    assert fs[0..] == fs;
  }

  lemma {:induction false} MappedFieldsFrom(fs: seq<FieldDecl>, i: nat)
    requires i <= |fs|
    ensures |MappedFields(fs[i..])| == |MappedPositions(fs, i)|
    ensures forall k :: 0 <= k < |MappedPositions(fs, i)| ==> MappedFields(fs[i..])[k] == fs[MappedPositions(fs, i)[k]]
    decreases |fs| - i
  {
    if i < |fs| {
      var tail := fs[i..];
      assert tail[0] == fs[i] && tail[1..] == fs[i + 1..];
      MappedFieldsFrom(fs, i + 1);
      var ms := MappedFields(fs[i + 1..]);
      var ps := MappedPositions(fs, i + 1);
      if fs[i].IsMapped() {
        assert MappedFields(tail) == [fs[i]] + ms;
        assert MappedPositions(fs, i) == [i] + ps;
        forall k | 0 <= k < |ps| + 1 ensures ([fs[i]] + ms)[k] == fs[([i] + ps)[k]] {
          if k > 0 {
            assert ([fs[i]] + ms)[k] == ms[k - 1] && ([i] + ps)[k] == ps[k - 1];
          }
        }
      } else {
        assert MappedFields(tail) == ms;
        assert MappedPositions(fs, i) == ps;
      }
    }
  }

  /** The first Id-annotated field in declaration order, if any (findFirst on the field stream). */
  function FirstId(fs: seq<FieldDecl>): (r: Option<FieldDecl>)
    ensures r.None? <==> forall i :: 0 <= i < |fs| ==> !fs[i].isId
    ensures r.Some? ==> exists i :: 0 <= i < |fs| && fs[i] == r.value && fs[i].isId
                                    && forall j :: 0 <= j < i ==> !fs[j].isId
  {
    if |fs| == 0 then None
    else if fs[0].isId then Some(fs[0])
    else
      var rest := FirstId(fs[1..]);
      assert forall i :: 1 <= i < |fs| ==> fs[i] == fs[1..][i - 1];
      rest
  }
}

=== FILE: values.dfy ===
/** The values a database row and a populated record hold. */
module Values {
  import opened Outcomes

  /** A Java class, known by its package and its simple (unqualified) name. */
  datatype ClassRef = ClassRef(package: string, simpleName: string)

  /** A column or field value. Related records appear only in relationship fields. */
  datatype Value =
    | Null
    | Int(i: int)
    | Text(s: string)
    | Ref(rec: Record)          // a single-valued relationship
    | Refs(recs: seq<Record>)   // a collection relationship

  /** One instance of a record class: its class and the value of each declared field. */
  datatype Record = Record(cls: ClassRef, fields: map<string, Value>)

  /** One equality criterion `key = value` (the repository's KeyValue pair). */
  datatype KeyValue = KeyValue(key: string, value: Value)

  /** One column of a result row, as a ResultSet exposes it: its name and its value. */
  datatype Column = Column(name: string, value: Value)

  /** A result row: its columns in select-list order. */
  type Row = seq<Column>

  /** The value of the first column named `column`, as ResultSet.getObject(column) reads it. */
  function Lookup(row: Row, column: string): (r: Option<Value>)
    ensures r.Some? <==> exists i :: 0 <= i < |row| && row[i].name == column
    ensures r.Some? ==> exists i :: 0 <= i < |row| && row[i].name == column && row[i].value == r.value
                                    && forall j :: 0 <= j < i ==> row[j].name != column
  {
    if |row| == 0 then None
    else if row[0].name == column then Some(row[0].value)
    else
      var rest := Lookup(row[1..], column);
      assert forall i :: 1 <= i < |row| ==> row[i] == row[1..][i - 1];
      rest
  }

  /** The current value of field `name` of `rec`; a field never assigned reads as null. */
  function Get(rec: Record, name: string): (v: Value)
    ensures name in rec.fields ==> v == rec.fields[name]
    ensures name !in rec.fields ==> v == Null
  {
    if name in rec.fields then rec.fields[name] else Null
  }

  /** `rec` with field `name` assigned `v` (Field.set). */
  function Set(rec: Record, name: string, v: Value): (r: Record)
    ensures r.cls == rec.cls && Get(r, name) == v
    ensures r.fields.Keys == rec.fields.Keys + {name}
    ensures forall n :: n in rec.fields && n != name ==> r.fields[n] == rec.fields[n]
  {
    rec.(fields := rec.fields[name := v])
  }
}
